=== FILE: README.md ===
# raylib marshalling-shim binding generator, in Dafny

The shim exposes raylib to a WebAssembly host that cannot pass C structs by
value. Every shim function has the form `m<Name>` and takes structs by
pointer. The shim has two parts:
- a hand-written part, `src/emscripten/raylib_marshall.c`, whose functions
  follow no single pattern: some return a pointer, some use types the
  generator does not know (`Quaternion`, `Vector3`), and some return a struct
  through a trailing pointer parameter (`mGetTouchPosition`);
- a generated part, `emscripten/raylib_marshall_gen.*`. Each generated
  function dereferences its struct parameters when it forwards the call to
  raylib, and always returns a struct result through a leading `out` pointer.

The generated part is produced by the generator script `ray/bindings.js`,
and that script is what this project models. For each `RLAPI`/`RAYGUIAPI`
declaration of the raylib headers, the script:

1. keeps the declaration only when its name is on the allow-list
   `generateBindingsFor`;
2. looks each parameter and the return type up in the type table `argMap`;
3. emits three texts: a Zig wrapper, a C header line and a C definition.

This project models that script as pure functions over parsed declarations.
It proves the rules the emitted wrappers follow.

| module | file | models |
|---|---|---|
| `Results` | `results.dfy` | `Option` and `Result`; a thrown `Error` is `Err(message)` |
| `Text` | `text.dfy` | joining, splitting and searching strings; used to read emitted text back |
| `TypeTable` | `type_table.dfy` | the 13 rows of `argMap`; each row's Zig conversion (`n`); `getMapping` |
| `AllowList` | `allow_list.dfy` | the 56 names of `generateBindingsFor`, in source order |
| `CEmit` | `c_emit.dfy` | the C signature and forwarding statement, as structure and as text; decoders proving the text is unambiguous |
| `ZigEmit` | `zig_emit.dfy` | the Zig wrapper: struct copies, `_out` handling, the call into `r.m<Name>` |
| `Bindings` | `bindings.dfy` | `mapFunction`; the loop that collects the three lists; the rules as lemmas |

A declaration is `Decl(returnType, name, params)`. Each parameter is
`Arg(cType, isPointer, name)`, exactly what the script's parameter regular
expression captures.

The script decides that a declaration has no parameters when:
- no parameter matched, or
- the first matched parameter mentions `void` anywhere (`/void/.test`).

The model copies that test: `Bindings.HasNoParameters`. A consequence, kept
as written: a first parameter such as `void *data`, or one named `avoid`,
makes the generator drop all parameters. No allow-listed raylib function has
such a first parameter.

The script builds the C texts directly. The model first builds a structure
(`CSignature`, `CCall`, `ZigFn`) and then renders it. The rules are proved on
the structure, and `BindingReadsBack` proves that the rendered text decodes
back to that same structure.

The committed generated C files are older than the script and differ from it:
- for `void` functions they contain `return InitWindow(...)`; the script emits
  a bare call;
- for empty parameter lists they contain `()`; the script emits `(void)`.

The model follows the script.

## Model

| member | source | states |
|---|---|---|
| TypeTable.FindFrom | ray/bindings.js:186-190 | Scanning from position `i` gives the first row at or after `i` whose type and pointer flag both equal the argument's. It gives nothing only when no row from `i` on matches. |
| TypeTable.GetMapping | ray/bindings.js:185-192 | The lookup succeeds exactly when some row has the argument's type and pointer flag. The result is the FIRST such row, with the argument's name and the row's conversion applied to the argument. Otherwise the error is `unknown arg type <type> <*?><name>`. |
| TypeTable.GetMappingSupported | ray/bindings.js:113-174 | The lookup succeeds for exactly 13 (type, pointer) pairs, listed independently of the table: `const char` by pointer; `void`, `bool`, `float`, `double`, `int` and the seven structs by value. |
| TypeTable.TableKeysDistinct | ray/bindings.js:113-174 | No two rows share a type and pointer flag. Consequently a row is the first match for an argument exactly when it matches it: the first match is the only match. |
| TypeTable.GetMappingStruct | ray/bindings.js:125-173 | A mapped argument is flagged as a struct exactly when it is a by-value Font, Rectangle, Camera2D, Vector2, Color, Matrix or Texture2D. |
| TypeTable.GetMappingStructCast | ray/bindings.js:125-173 | A struct argument has Zig type `t.<type>`. Its call-site expression is `@ptrCast([*c]r.<type>, &_<name>)`, the address of its local copy. |
| Bindings.MapArgs | ray/bindings.js:212 | Mapping the parameters succeeds exactly when every parameter is in the table. The result holds one entry per parameter, in order, each the lookup of that parameter. |
| Bindings.MapArgsFirstError | ray/bindings.js:212 | A failed mapping reports the lookup error of the first unknown parameter. Every parameter before it is known. |
| Bindings.MapFunction | ray/bindings.js:194-283 | A name off the allow-list gives no output. For an allowed name, success always gives exactly one zig/h/c triple. |
| Bindings.MapFunctionErrors | ray/bindings.js:204-213 | An allowed declaration fails exactly when a forwarded parameter or the return type is not in the table. Parameters are looked up first, so the error names the first unknown parameter. The return type is named only when every parameter is known. |
| Bindings.PlanSucceeds | ray/bindings.js:199-213 | A wrapper is produced exactly for an allowed declaration whose forwarded parameters and return type are all in the table. |
| Bindings.StructReturnRule | ray/bindings.js:251-256 | For a struct return type `R`, the wrapper returns `void`. Its parameters are `R *out`, then the forwarded parameters in order (none when the generator found no parameters). Its body stores the call's value through `*out`. |
| Bindings.ScalarReturnRule | ray/bindings.js:257-270 | For any other return type, the wrapper keeps the declared return type. The parameter list is the literal `void` when the generator found no parameters, and otherwise the declared parameters in order. The body is a bare call for `void` and `return F(...)` otherwise. |
| Bindings.ForwardingRule | ray/bindings.js:268-272 | The wrapper is named `m` + the name. It calls the original name with the forwarded parameters in order, prefixing `*` to exactly the by-value structs. |
| Bindings.NoStructByValue | ray/bindings.js:253-262 | Every struct-typed parameter of a wrapper is a pointer, the output slot included. |
| Bindings.BindingReadsBack | ray/bindings.js:250-282 | For a declaration of identifiers, as the header's regular expressions capture it, the triple `mapFunction` returns contains a header line and a definition. These decode back to exactly the signature and forwarding statement that the rules above describe. |
| CEmit.ParamsRoundTrip | ray/bindings.js:253-262 | The rendered parameter list reads back as that list: either `void` or the parameters joined by `, `. |
| CEmit.HeaderRoundTrip | ray/bindings.js:280 | The header entry, the signature followed by `;`, reads back as the signature. |
| CEmit.StatementRoundTrip | ray/bindings.js:268-273 | The forwarding statement reads back as its kind (`*out = `, bare or `return `), callee and arguments. |
| CEmit.DefinitionRoundTrip | ray/bindings.js:266-281 | The definition entry reads back as its signature and its one forwarding statement. |
| ZigEmit.StructCopies | ray/bindings.js:220-224 | The Zig body declares a local copy for exactly the struct arguments' names, and no more copies than there are arguments. |
| ZigEmit.StructCopiesInOrder | ray/bindings.js:220-224 | The copies are the struct arguments' names taken at their positions, in increasing argument order: one copy per struct argument, none repeated or reordered, none for another argument. |
| Bindings.ZigMatchesC | ray/bindings.js:214-247 | The Zig wrapper calls `r.m<Name>` with as many arguments as the C wrapper declares. A struct result is declared as `_out: t.<R>`, whose address goes first, and no `_out` is declared for any other result. Every struct argument is copied and passed by the address of its copy, at its own position. The call is returned only for a non-struct, non-`void` result. |
| Bindings.ZigCopiesFollowParams | ray/bindings.js:220-224 | At the declaration level, the Zig wrapper copies its by-value struct parameters, one copy each, in parameter order, and copies nothing else: the copies are the names at the strictly increasing list of exactly the struct positions among the forwarded parameters. |
| Bindings.GenerateWith | ray/bindings.js:288-299 | Declarations are handled in input order, and the run fails exactly when one of them fails. The error is that of the first failing declaration. Otherwise the three lists hold one entry per allowed declaration, in input order. The run is flagged incomplete exactly when their length differs from the allow-list's. |
| Bindings.Generate | ray/bindings.js:288-299 | The same, for the loop as written, which calls `mapFunction` on every declaration of the header. A header without any declaration fails: `match` returns `null` and `for…of` throws `inputCode.match(...) is not iterable`. |

## Left out

- Reading the raylib headers, writing `gen.zig` and the two C files, and every `console.log`: the model works on already-parsed declarations and returns the three lists (ray/bindings.js:85-94, 202, 301-338).
- The regular expressions that find declarations and split parameters: the input `Decl` is what they capture (ray/bindings.js:96-104, 204-211, 288-289).
- Generate: the "not all functions … were generated" message is the `incomplete` flag of the result, not a log line.
- Bindings.Generate: the text of the TypeError thrown for a header without declarations is the one V8 (Node.js) gives; other JavaScript engines word it differently, and the model fixes that one text.
- ZigEmit.RenderZig: the Zig text is modelled exactly, but no read-back is proved for it. The Zig properties are stated on the wrapper's structure (`ZigMatchesC`).
- AllowList.GenerateBindingsFor: the model does not prove that the names are distinct. The count comparison at ray/bindings.js:297 is modelled as written, whether or not they are.
- The hand-written shim files, the committed generated files and the browser storage helpers under `emscripten/` and `src/emscripten/`: they only delegate to raylib or to the host, and are not part of this model.

=== FILE: allow_list.dfy ===
/** The allow-list `generateBindingsFor`: only declarations whose name
    appears here get a wrapper. */
module AllowList {

  const GenerateBindingsFor: seq<string> := [
    "InitWindow", "SetWindowSize", "SetWindowMinSize", "WindowShouldClose",
    "CloseWindow", "GetScreenWidth", "GetScreenHeight", "SetWindowMonitor",
    "SetWindowPosition", "OpenURL", "SetTargetFPS", "GetFPS",
    "GetFrameTime", "GetTime", "BeginMode2D", "GetScreenToWorld2D",
    "GetWorldToScreen2D", "EndMode2D", "GetCameraMatrix2D", "ClearBackground",
    "BeginDrawing", "EndDrawing", "DrawLineEx", "DrawRectanglePro",
    "LoadTexture", "UnloadTexture", "DrawTextureEx", "DrawTexturePro",
    "DrawTextureRec", "DrawText", "DrawFPS", "GetTouchPointCount",
    "GetTouchPosition", "IsCursorOnScreen", "GetMousePosition", "GetMouseDelta",
    "IsMouseButtonDown", "IsMouseButtonPressed", "IsMouseButtonReleased", "IsMouseButtonUp",
    "SetMouseOffset", "SetMouseScale", "GetMouseWheelMove", "SetMouseCursor",
    "IsKeyPressed", "IsKeyDown", "IsKeyReleased", "IsKeyUp",
    "SetExitKey", "GetKeyPressed", "GetCharPressed", "MatrixIdentity",
    "MatrixMultiply", "QuaternionFromMatrix", "QuaternionFromAxisAngle", "QuaternionToAxisAngle"
  ]

  /** `generateBindingsFor.includes(name)` */
  predicate Allowed(name: string) {
    name in GenerateBindingsFor
  }
}

=== FILE: bindings.dfy ===
/** The binding generator: for each parsed header declaration whose name is
    on the allow-list, look every parameter and the return type up in the
    type table and emit a Zig wrapper, a C header line and a C definition
    for a function `m<name>` that takes structs by pointer and hands a
    struct result back through a leading `out` pointer. */
module Bindings {
  import opened Results
  import opened Text
  import opened TypeTable
  import opened AllowList
  import opened CEmit
  import opened ZigEmit

  /** A declaration `RLAPI R F(params);` as the header's regular
      expressions split it: return type, name, and each parameter match. */
  datatype Decl = Decl(returnType: string, name: string, params: seq<Arg>)

  /** The three texts emitted for one declaration. */
  datatype Binding = Binding(zig: string, h: string, c: string)

  /** One wrapper before rendering. */
  datatype Shape = Shape(signature: CSignature, call: CCall, zig: ZigFn)

  /** What the generator collects over a whole header. */
  datatype Output = Output(zig: seq<string>, h: seq<string>, c: seq<string>, incomplete: bool)

  /** `!mParams || /void/.test(mParams[0])`: no parameter matched, or the
      first match mentions `void` in its type or its name. */
  predicate HasNoParameters(d: Decl) {
    |d.params| == 0 || Contains(d.params[0].cType, "void") || Contains(d.params[0].name, "void")
  }

  /** The parameters the wrapper forwards. */
  function Forwarded(d: Decl): seq<Arg> {
    if HasNoParameters(d) then [] else d.params
  }

  /** The return type, looked up as a non-pointer argument named `out`. */
  function ReturnArg(d: Decl): Arg {
    Arg(d.returnType, false, "out")
  }

  /** `args.map(getMapping)`: the first unknown argument aborts. */
  function MapArgs(params: seq<Arg>): (r: Result<seq<Mapped>>)
    ensures r.Ok? ==> |r.value| == |params| && forall i :: 0 <= i < |params| ==> GetMapping(params[i]) == Ok(r.value[i])
    ensures r.Err? ==> exists i :: 0 <= i < |params| && GetMapping(params[i]).Err?
    decreases |params|
  {
    if |params| == 0 then Ok([])
    else
      var first :- GetMapping(params[0]);
      var rest :- MapArgs(params[1..]);
      Ok([first] + rest)
  }

  /** `i` is the first argument the type table does not know. */
  predicate FirstUnknown(params: seq<Arg>, i: int) {
    0 <= i < |params| && GetMapping(params[i]).Err? && forall j :: 0 <= j < i ==> GetMapping(params[j]).Ok?
  }

  /** A failed `args.map(getMapping)` reports the first unknown argument. */
  lemma {:induction false} MapArgsFirstError(params: seq<Arg>)
    requires MapArgs(params).Err?
    ensures exists i :: FirstUnknown(params, i) && MapArgs(params).message == UnknownArgMessage(params[i])
    decreases |params|
  {
    if GetMapping(params[0]).Ok? {
      var rest := params[1..];
      MapArgsFirstError(rest);
      var i :| FirstUnknown(rest, i) && MapArgs(rest).message == UnknownArgMessage(rest[i]);
      assert FirstUnknown(params, i + 1) by {
        forall j | 0 <= j < i + 1
          ensures GetMapping(params[j]).Ok?
        {
          if j > 0 {
            assert params[j] == rest[j - 1];
          }
        }
      }
      assert MapArgs(params).message == UnknownArgMessage(params[i + 1]);
    } else {
      assert FirstUnknown(params, 0);
    }
  }

  /** `mapFunction` before rendering: nothing for a name off the allow-list,
      otherwise the wrapper's shape, or the lookup error. */
  function Plan(d: Decl): Result<Option<Shape>> {
    if !Allowed(d.name) then Ok(None)
    else
      var args :- MapArgs(Forwarded(d));
      var ret :- GetMapping(ReturnArg(d));
      Ok(Some(Build(d, args, ret)))
  }

  function Build(d: Decl, args: seq<Mapped>, ret: Mapped): Shape {
    Shape(
      SignatureOf(d.returnType, d.name, HasNoParameters(d), args, ret),
      CallOf(d.name, args, ret),
      ZigFnOf(d.name, args, ret))
  }

  function Render(s: Shape): Binding {
    Binding(RenderZig(s.zig), HeaderLine(s.signature), Definition(s.signature, s.call))
  }

  /** All forwarded parameters are in the type table. */
  predicate ArgsMappable(d: Decl) {
    forall i :: 0 <= i < |Forwarded(d)| ==> GetMapping(Forwarded(d)[i]).Ok?
  }

  /** The forwarded parameters and the return type are in the type table. */
  predicate Mappable(d: Decl) {
    ArgsMappable(d) && GetMapping(ReturnArg(d)).Ok?
  }

  /** `mapFunction(m)`: `undefined` for a name off the allow-list, and for
      an allowed name either one zig/h/c triple or a lookup error. */
  function MapFunction(d: Decl): (r: Result<Option<Binding>>)
    ensures !Allowed(d.name) ==> r == Ok(None)
    ensures Allowed(d.name) && r.Ok? ==> r.value.Some?
  {
    var plan :- Plan(d);
    match plan
    case None => Ok(None)
    case Some(s) => Ok(Some(Render(s)))
  }

  /** An allowed declaration fails exactly when a forwarded parameter or the
      return type is missing from the type table; the parameters are looked
      up first, so the error names the first unknown parameter, and the
      return type only when every parameter is known. */
  lemma MapFunctionErrors(d: Decl)
    requires Allowed(d.name)
    ensures MapFunction(d).Ok? <==> Mappable(d)
    ensures MapFunction(d).Err? ==>
      || (exists i :: FirstUnknown(Forwarded(d), i)
                      && MapFunction(d).message == UnknownArgMessage(Forwarded(d)[i]))
      || (ArgsMappable(d) && MapFunction(d).message == UnknownArgMessage(ReturnArg(d)))
  {
    if MapArgs(Forwarded(d)).Err? {
      MapArgsFirstError(Forwarded(d));
    }
  }

  // ---------------------------------------------------------------------
  // The rules of the wrapper, stated in terms of the declaration

  /** The C parameter an argument becomes: starred exactly when it is a
      pointer or a struct passed by value. */
  function ExpectedParam(a: Arg): CParam {
    CParam(a.cType, a.isPointer || IsStructValue(a), a.name)
  }

  function ExpectedParams(args: seq<Arg>): seq<CParam> {
    seq(|args|, i requires 0 <= i < |args| => ExpectedParam(args[i]))
  }

  /** The forwarded argument: dereferenced exactly when it is a struct. */
  function ExpectedArgs(args: seq<Arg>): seq<CArg> {
    seq(|args|, i requires 0 <= i < |args| => CArg(IsStructValue(args[i]), args[i].name))
  }

  /** A wrapper is produced exactly for an allowed, mappable declaration. */
  lemma PlanSucceeds(d: Decl)
    ensures Plan(d).Ok? && Plan(d).value.Some? <==> Allowed(d.name) && Mappable(d)
  {
  }

  lemma MappedParam(a: Arg)
    requires GetMapping(a).Ok?
    ensures ParamOf(GetMapping(a).value) == ExpectedParam(a)
    ensures ArgOf(GetMapping(a).value) == CArg(IsStructValue(a), a.name)
  {
    GetMappingStruct(a);
  }

  lemma MappedParams(params: seq<Arg>)
    requires MapArgs(params).Ok?
    ensures ParamsOf(MapArgs(params).value) == ExpectedParams(params)
    ensures ArgsOf(MapArgs(params).value) == ExpectedArgs(params)
  {
    forall i | 0 <= i < |params|
      ensures ParamOf(MapArgs(params).value[i]) == ExpectedParam(params[i])
      ensures ArgOf(MapArgs(params).value[i]) == CArg(IsStructValue(params[i]), params[i].name)
    {
      MappedParam(params[i]);
    }
  }

  /** A struct result becomes a `void` wrapper whose first parameter is the
      output pointer `out`, followed by the forwarded parameters in their
      original order; the body stores the call's value through `out`. */
  lemma StructReturnRule(d: Decl, s: Shape)
    requires Plan(d) == Ok(Some(s))
    requires d.returnType in StructTypes
    ensures s.signature.returnType == "void"
    ensures s.signature.params == Params([CParam(d.returnType, true, "out")] + ExpectedParams(Forwarded(d)))
    ensures s.call.kind == StoreOut("out")
  {
    MappedParams(Forwarded(d));
    GetMappingStruct(ReturnArg(d));
  }

  /** A scalar or `void` result keeps the declared return type; the
      parameter list is the literal `void` when the generator found no
      parameters, and otherwise the declared parameters in order. The body
      returns the call's value, or for a `void` function just makes the call. */
  lemma ScalarReturnRule(d: Decl, s: Shape)
    requires Plan(d) == Ok(Some(s))
    requires d.returnType !in StructTypes
    ensures s.signature.returnType == d.returnType
    ensures HasNoParameters(d) ==> s.signature.params == VoidList
    ensures !HasNoParameters(d) ==> s.signature.params == Params(ExpectedParams(d.params))
    ensures s.call.kind == (if d.returnType == "void" then Bare else ReturnValue)
  {
    MappedParams(Forwarded(d));
    GetMappingStruct(ReturnArg(d));
  }

  /** The wrapper is `m` + the name, and it calls the original function with
      the forwarded parameters in order, dereferencing exactly the structs. */
  lemma ForwardingRule(d: Decl, s: Shape)
    requires Plan(d) == Ok(Some(s))
    ensures s.signature.wrapper == "m" + d.name
    ensures s.call.callee == d.name
    ensures s.call.args == ExpectedArgs(Forwarded(d))
  {
    MappedParams(Forwarded(d));
  }

  /** Every struct-typed parameter in `ps` is a pointer. */
  predicate StructsByPointer(ps: seq<CParam>) {
    forall i :: 0 <= i < |ps| && ps[i].cType in StructTypes ==> ps[i].star
  }

  lemma ExpectedParamsByPointer(f: seq<Arg>)
    ensures StructsByPointer(ExpectedParams(f))
  {
  }

  lemma PrependByPointer(p: CParam, ps: seq<CParam>)
    requires p.star && StructsByPointer(ps)
    ensures StructsByPointer([p] + ps)
  {
    assert forall i :: 1 <= i < |[p] + ps| ==> ([p] + ps)[i] == ps[i - 1];
  }

  /** No struct crosses the C boundary by value: every struct-typed
      parameter of the wrapper, the output slot included, is a pointer. */
  lemma NoStructByValue(d: Decl, s: Shape)
    requires Plan(d) == Ok(Some(s))
    ensures s.signature.params.Params? ==>
              forall i :: 0 <= i < |s.signature.params.items| && s.signature.params.items[i].cType in StructTypes ==>
                s.signature.params.items[i].star
  {
    var f := Forwarded(d);
    ExpectedParamsByPointer(f);
    if d.returnType in StructTypes {
      StructReturnRule(d, s);
      PrependByPointer(CParam(d.returnType, true, "out"), ExpectedParams(f));
    } else {
      ScalarReturnRule(d, s);
    }
  }

  // ---------------------------------------------------------------------
  // The emitted text

  /** What the header's regular expressions guarantee of a declaration. */
  predicate WellFormedDecl(d: Decl) {
    && IsIdentifier(d.returnType)
    && IsIdentifier(d.name)
    && forall i :: 0 <= i < |d.params| ==> IsTypeText(d.params[i].cType) && IsIdentifier(d.params[i].name)
  }

  lemma ExpectedParamsWellFormed(params: seq<Arg>)
    requires forall i :: 0 <= i < |params| ==> IsTypeText(params[i].cType) && IsIdentifier(params[i].name)
    ensures forall i :: 0 <= i < |params| ==> WellFormedParam(ExpectedParams(params)[i])
  {
    forall i | 0 <= i < |params| ensures WellFormedParam(ExpectedParams(params)[i]) {
      var t := params[i].cType;
      assert forall k :: 0 <= k < |t| ==> IsWordChar(t[k]) || t[k] == ' ';
    }
  }

  lemma SignatureWellFormed(d: Decl, sig: CSignature)
    requires WellFormedDecl(d)
    requires sig.wrapper == "m" + d.name
    requires sig.returnType == "void" || sig.returnType == d.returnType
    requires || sig.params == Params([CParam(d.returnType, true, "out")] + ExpectedParams(Forwarded(d)))
             || (HasNoParameters(d) && sig.params == VoidList)
             || (!HasNoParameters(d) && sig.params == Params(ExpectedParams(d.params)))
    ensures WellFormedSignature(sig)
  {
    var f := Forwarded(d);
    ExpectedParamsWellFormed(f);
    assert IsIdentifier("out");
    if sig.params == Params([CParam(d.returnType, true, "out")] + ExpectedParams(f)) {
      var items := sig.params.items;
      assert forall i :: 1 <= i < |items| ==> items[i] == ExpectedParams(f)[i - 1];
    }
  }

  lemma CallWellFormed(d: Decl, call: CCall)
    requires WellFormedDecl(d)
    requires call.callee == d.name && call.args == ExpectedArgs(Forwarded(d))
    requires call.kind.StoreOut? ==> call.kind.target == "out"
    ensures WellFormedCall(call)
  {
    assert IsIdentifier("out");
  }

  lemma PlanWellFormed(d: Decl, s: Shape)
    requires WellFormedDecl(d) && Plan(d) == Ok(Some(s))
    ensures WellFormedSignature(s.signature)
    ensures WellFormedCall(s.call)
  {
    ForwardingRule(d, s);
    if d.returnType in StructTypes {
      StructReturnRule(d, s);
    } else {
      ScalarReturnRule(d, s);
    }
    SignatureWellFormed(d, s.signature);
    CallWellFormed(d, s.call);
  }

  /** The emitted header line and definition read back as the wrapper's
      signature and forwarding statement: the text says exactly what the
      rules above say of the structure. */
  lemma BindingReadsBack(d: Decl, s: Shape)
    requires WellFormedDecl(d) && Plan(d) == Ok(Some(s))
    ensures MapFunction(d) == Ok(Some(Render(s)))
    ensures DecodeHeader(Render(s).h) == Some(s.signature)
    ensures DecodeDefinition(Render(s).c) == Some((s.signature, s.call))
  {
    PlanWellFormed(d, s);
    HeaderRoundTrip(s.signature);
    DefinitionRoundTrip(s.signature, s.call);
  }

  /** What the type table tells about each mapped argument. */
  predicate Corresponds(f: seq<Arg>, args: seq<Mapped>) {
    && |args| == |f|
    && forall i :: 0 <= i < |f| ==>
         && (args[i].isStruct <==> IsStructValue(f[i]))
         && args[i].name == f[i].name
         && (IsStructValue(f[i]) ==> Show(args[i].cn) == "@ptrCast([*c]r." + f[i].cType + ", &_" + f[i].name + ")")
  }

  lemma MappedArgsCorrespond(f: seq<Arg>, args: seq<Mapped>)
    requires MapArgs(f) == Ok(args)
    ensures Corresponds(f, args)
  {
    forall i | 0 <= i < |f|
      ensures args[i].isStruct <==> IsStructValue(f[i])
      ensures IsStructValue(f[i]) ==> Show(args[i].cn) == "@ptrCast([*c]r." + f[i].cType + ", &_" + f[i].name + ")"
    {
      GetMappingStruct(f[i]);
      if IsStructValue(f[i]) {
        GetMappingStructCast(f[i]);
      }
    }
  }

  lemma ZigCopiesAgainstArgs(f: seq<Arg>, name: string, args: seq<Mapped>, ret: Mapped)
    requires Corresponds(f, args)
    ensures var z := ZigFnOf(name, args, ret);
            && (forall i :: 0 <= i < |f| && IsStructValue(f[i]) ==> f[i].name in z.copies)
            && (forall n :: n in z.copies <==> exists i :: 0 <= i < |f| && IsStructValue(f[i]) && f[i].name == n)
  {
  }

  lemma ZigCallArgsAgainstArgs(f: seq<Arg>, name: string, args: seq<Mapped>, ret: Mapped)
    requires Corresponds(f, args)
    ensures var z := ZigFnOf(name, args, ret);
            var offset := if ret.isStruct then 1 else 0;
            && |z.callArgs| == offset + |f|
            && (ret.isStruct ==> z.callArgs[0] == Show(ret.cn))
            && (forall i :: 0 <= i < |f| && IsStructValue(f[i]) ==>
                  z.callArgs[offset + i] == "@ptrCast([*c]r." + f[i].cType + ", &_" + f[i].name + ")")
  {
  }

  /** `idx` lists, in increasing order, exactly the positions of the
      by-value struct parameters among `f`. */
  predicate StructValuePositions(f: seq<Arg>, idx: seq<nat>) {
    && (forall k :: 0 <= k < |idx| ==> idx[k] < |f| && IsStructValue(f[idx[k]]))
    && (forall k, l :: 0 <= k < l < |idx| ==> idx[k] < idx[l])
    && (forall i :: 0 <= i < |f| && IsStructValue(f[i]) ==> i in idx)
  }

  /** The Zig body copies the by-value struct parameters, one each, in
      parameter order. */
  lemma ZigCopiesInOrder(f: seq<Arg>, name: string, args: seq<Mapped>, ret: Mapped)
    requires Corresponds(f, args)
    ensures var copies := ZigFnOf(name, args, ret).copies;
            exists idx: seq<nat> ::
              && StructValuePositions(f, idx)
              && |idx| == |copies|
              && forall k :: 0 <= k < |idx| ==> copies[k] == f[idx[k]].name
  {
    StructCopiesInOrder(args);
    var idx: seq<nat> :| && StructPositions(args, idx)
                         && |idx| == |StructCopies(args)|
                         && forall k :: 0 <= k < |idx| ==> StructCopies(args)[k] == args[idx[k]].name;
    assert StructValuePositions(f, idx);
  }

  /** What the type table tells about the mapped return type. */
  predicate ReturnCorresponds(returnType: string, ret: Mapped) {
    && ret.cType == returnType
    && (ret.isStruct <==> returnType in StructTypes)
    && (ret.isStruct ==> ret.zigType == "t." + returnType
                         && Show(ret.cn) == "@ptrCast([*c]r." + returnType + ", &_out)")
  }

  lemma MappedReturnCorresponds(d: Decl, ret: Mapped)
    requires GetMapping(ReturnArg(d)) == Ok(ret)
    ensures ReturnCorresponds(d.returnType, ret)
  {
    GetMappingStruct(ReturnArg(d));
    if ret.isStruct {
      GetMappingStructCast(ReturnArg(d));
    }
  }

  lemma ZigShapeAgainstSignature(returnType: string, name: string, noParams: bool, args: seq<Mapped>, ret: Mapped)
    requires ReturnCorresponds(returnType, ret)
    requires noParams ==> |args| == 0
    ensures var sig := SignatureOf(returnType, name, noParams, args, ret);
            var z := ZigFnOf(name, args, ret);
            && z.callee == sig.wrapper
            && |z.callArgs| == Arity(sig.params)
            && (z.returnsCall <==> returnType !in StructTypes && returnType != "void")
            && (z.outType.Some? <==> returnType in StructTypes)
            && (returnType in StructTypes ==>
                  && z.outType == Some("t." + returnType)
                  && z.callArgs[0] == "@ptrCast([*c]r." + returnType + ", &_out)")
  {
  }

  /** The Zig wrapper calls the C wrapper of the same declaration with as
      many arguments as its signature declares: the address of `_out` first
      for a struct result, then one per forwarded parameter in order, where
      each struct is passed as the address of a local copy the body declares. */
  lemma ZigMatchesC(d: Decl, s: Shape)
    requires Plan(d) == Ok(Some(s))
    ensures s.zig.callee == s.signature.wrapper
    ensures |s.zig.callArgs| == Arity(s.signature.params)
    ensures s.zig.returnsCall <==> d.returnType !in StructTypes && d.returnType != "void"
    ensures s.zig.outType.Some? <==> d.returnType in StructTypes
    ensures d.returnType in StructTypes ==>
              && s.zig.outType == Some("t." + d.returnType)
              && s.zig.callArgs[0] == "@ptrCast([*c]r." + d.returnType + ", &_out)"
    ensures var f := Forwarded(d);
            var offset := if d.returnType in StructTypes then 1 else 0;
            forall i :: 0 <= i < |f| && IsStructValue(f[i]) ==>
              && f[i].name in s.zig.copies
              && s.zig.callArgs[offset + i] == "@ptrCast([*c]r." + f[i].cType + ", &_" + f[i].name + ")"
    ensures var f := Forwarded(d);
            forall n :: n in s.zig.copies <==> exists i :: 0 <= i < |f| && IsStructValue(f[i]) && f[i].name == n
  {
    var f := Forwarded(d);
    var args := MapArgs(f).value;
    var ret := GetMapping(ReturnArg(d)).value;
    MappedArgsCorrespond(f, args);
    MappedReturnCorresponds(d, ret);
    ZigAgainstSignature(d.returnType, d.name, HasNoParameters(d), f, args, ret, s.signature, s.zig);
  }

  /** The Zig wrapper of a declaration copies its by-value struct
      parameters, one copy each, in parameter order, and nothing else. */
  lemma ZigCopiesFollowParams(d: Decl, s: Shape)
    requires Plan(d) == Ok(Some(s))
    ensures var f := Forwarded(d);
            exists idx: seq<nat> ::
              && StructValuePositions(f, idx)
              && |idx| == |s.zig.copies|
              && forall k :: 0 <= k < |idx| ==> s.zig.copies[k] == f[idx[k]].name
  {
    var args := MapArgs(Forwarded(d)).value;
    var ret := GetMapping(ReturnArg(d)).value;
    MappedArgsCorrespond(Forwarded(d), args);
    ZigCopiesInOrder(Forwarded(d), d.name, args, ret);
  }

  lemma ZigAgainstSignature(returnType: string, name: string, noParams: bool, f: seq<Arg>,
                            args: seq<Mapped>, ret: Mapped, sig: CSignature, z: ZigFn)
    requires Corresponds(f, args) && ReturnCorresponds(returnType, ret)
    requires noParams ==> |args| == 0
    requires sig == SignatureOf(returnType, name, noParams, args, ret) && z == ZigFnOf(name, args, ret)
    ensures z.callee == sig.wrapper
    ensures |z.callArgs| == Arity(sig.params)
    ensures z.returnsCall <==> returnType !in StructTypes && returnType != "void"
    ensures z.outType.Some? <==> returnType in StructTypes
    ensures returnType in StructTypes ==>
              && z.outType == Some("t." + returnType)
              && z.callArgs[0] == "@ptrCast([*c]r." + returnType + ", &_out)"
    ensures var offset := if returnType in StructTypes then 1 else 0;
            forall i :: 0 <= i < |f| && IsStructValue(f[i]) ==>
              && f[i].name in z.copies
              && z.callArgs[offset + i] == "@ptrCast([*c]r." + f[i].cType + ", &_" + f[i].name + ")"
    ensures forall n :: n in z.copies <==> exists i :: 0 <= i < |f| && IsStructValue(f[i]) && f[i].name == n
  {
    ZigShapeAgainstSignature(returnType, name, noParams, args, ret);
    ZigCopiesAgainstArgs(f, name, args, ret);
    ZigCallArgsAgainstArgs(f, name, args, ret);
  }

  // ---------------------------------------------------------------------
  // The whole header

  /** The allowed declarations, in input order. */
  function Selected(decls: seq<Decl>): seq<Decl>
  {
    if |decls| == 0 then []
    else Selected(decls[..|decls| - 1])
         + (if Allowed(decls[|decls| - 1].name) then [decls[|decls| - 1]] else [])
  }

  lemma SelectedStep(decls: seq<Decl>, i: nat)
    requires i < |decls|
    ensures Selected(decls[..i + 1])
            == Selected(decls[..i]) + (if Allowed(decls[i].name) then [decls[i]] else [])
  {
    assert decls[..i + 1][..i] == decls[..i];
  }

  /** `zig`, `h` and `c` hold, in order, the texts `step` gave for the
      allowed declarations among `ds`. */
  predicate Collected(step: Decl -> Result<Option<Binding>>, ds: seq<Decl>,
                      zig: seq<string>, h: seq<string>, c: seq<string>)
  {
    && |zig| == |Selected(ds)| && |h| == |zig| && |c| == |zig|
    && forall k :: 0 <= k < |zig| ==> step(Selected(ds)[k]) == Ok(Some(Binding(zig[k], h[k], c[k])))
  }

  /** Handling one more declaration keeps the collected texts in step with
      the allowed declarations seen so far. */
  lemma CollectedStep(step: Decl -> Result<Option<Binding>>, decls: seq<Decl>, i: nat,
                      zig: seq<string>, h: seq<string>, c: seq<string>)
    requires i < |decls| && Collected(step, decls[..i], zig, h, c)
    requires step(decls[i]).Ok? && (step(decls[i]).value.Some? <==> Allowed(decls[i].name))
    ensures var b := step(decls[i]).value;
            if b.Some? then Collected(step, decls[..i + 1], zig + [b.value.zig], h + [b.value.h], c + [b.value.c])
            else Collected(step, decls[..i + 1], zig, h, c)
  {
    SelectedStep(decls, i);
    var sel := Selected(decls[..i]);
    var b := step(decls[i]).value;
    if b.Some? {
      var next := sel + [decls[i]];
      forall k | 0 <= k < |zig| + 1
        ensures step(next[k]) == Ok(Some(Binding((zig + [b.value.zig])[k], (h + [b.value.h])[k], (c + [b.value.c])[k])))
      {
        if k < |zig| {
          assert next[k] == sel[k];
        }
      }
    }
  }

  /** The loop of the script over a header's declarations, for any `step`
      that treats the allow-list as `mapFunction` does: every declaration in
      input order, one triple per allowed one; the first error aborts the
      run; at the end the run is flagged incomplete when the number of
      wrappers differs from the length of the allow-list. */
  method GenerateWith(step: Decl -> Result<Option<Binding>>, decls: seq<Decl>) returns (r: Result<Output>)
    requires forall d: Decl :: !Allowed(d.name) ==> step(d) == Ok(None)
    requires forall d: Decl :: Allowed(d.name) && step(d).Ok? ==> step(d).value.Some?
    ensures r.Err? <==> exists i :: 0 <= i < |decls| && step(decls[i]).Err?
    ensures r.Err? ==> exists i :: 0 <= i < |decls| && step(decls[i]).Err?
                                   && r.message == step(decls[i]).message
                                   && forall j :: 0 <= j < i ==> step(decls[j]).Ok?
    ensures r.Ok? ==> |r.value.zig| == |Selected(decls)| && |r.value.h| == |Selected(decls)|
                      && |r.value.c| == |Selected(decls)|
    ensures r.Ok? ==> forall k :: 0 <= k < |Selected(decls)| ==>
                        step(Selected(decls)[k]) == Ok(Some(Binding(r.value.zig[k], r.value.h[k], r.value.c[k])))
    ensures r.Ok? ==> (r.value.incomplete <==> |Selected(decls)| != |GenerateBindingsFor|)
  {
    var zig: seq<string> := [];
    var h: seq<string> := [];
    var c: seq<string> := [];
    var i := 0;
    while i < |decls|
      invariant 0 <= i <= |decls|
      invariant forall j :: 0 <= j < i ==> step(decls[j]).Ok?
      invariant Collected(step, decls[..i], zig, h, c)
    {
      var out := step(decls[i]);
      if out.Err? {
        return Err(out.message);
      }
      CollectedStep(step, decls, i, zig, h, c);
      if out.value.Some? {
        zig := zig + [out.value.value.zig];
        h := h + [out.value.value.h];
        c := c + [out.value.value.c];
      }
      i := i + 1;
    }
    assert decls[..i] == decls;
    return Ok(Output(zig, h, c, |GenerateBindingsFor| != |zig|));
  }

  /** The TypeError `for…of` throws when `inputCode.match` finds no
      declaration and returns `null`. */
  const NotIterableMessage: string := "inputCode.match(...) is not iterable"

  /** The generator run over a header's declarations with `mapFunction`. A
      header without any declaration makes the loop throw before anything
      is collected. */
  method Generate(decls: seq<Decl>) returns (r: Result<Output>)
    ensures |decls| == 0 ==> r == Err(NotIterableMessage)
    ensures |decls| > 0 ==> (r.Err? <==> exists i :: 0 <= i < |decls| && MapFunction(decls[i]).Err?)
    ensures |decls| > 0 && r.Err? ==>
              exists i :: 0 <= i < |decls| && MapFunction(decls[i]).Err?
                          && r.message == MapFunction(decls[i]).message
                          && forall j :: 0 <= j < i ==> MapFunction(decls[j]).Ok?
    ensures r.Ok? ==> |r.value.zig| == |Selected(decls)| && |r.value.h| == |Selected(decls)|
                      && |r.value.c| == |Selected(decls)|
    ensures r.Ok? ==> forall k :: 0 <= k < |Selected(decls)| ==>
                        MapFunction(Selected(decls)[k]) == Ok(Some(Binding(r.value.zig[k], r.value.h[k], r.value.c[k])))
    ensures r.Ok? ==> (r.value.incomplete <==> |Selected(decls)| != |GenerateBindingsFor|)
  {
    if |decls| == 0 {
      return Err(NotIterableMessage);
    }
    r := GenerateWith(MapFunction, decls);
  }
}

=== FILE: c_emit.dfy ===
/** The C half of a wrapper: its signature (shared by the header line and the
    definition) and the one forwarding statement of its body, both as
    structured values and as the exact text the generator emits, together
    with readers that recover the structure from the text. */
module CEmit {
  import opened Results
  import opened Text
  import opened TypeTable

  /** One rendered parameter `type [*]name`. */
  datatype CParam = CParam(cType: string, star: bool, name: string)

  /** A parameter list: the literal `void`, or parameters in order. */
  datatype ParamList = VoidList | Params(items: seq<CParam>)

  datatype CSignature = CSignature(returnType: string, wrapper: string, params: ParamList)

  /** How the forwarded call's value is used. */
  datatype CallKind =
    | StoreOut(target: string)  // `*target = F(...)`
    | Bare                      // `F(...)`
    | ReturnValue               // `return F(...)`

  /** One forwarded argument, dereferenced or passed through. */
  datatype CArg = CArg(deref: bool, name: string)

  datatype CCall = CCall(kind: CallKind, callee: string, args: seq<CArg>)

  // ---------------------------------------------------------------------
  // From mapped arguments to structure

  function ParamOf(m: Mapped): CParam {
    CParam(m.cType, m.isPointer || m.isStruct, m.name)
  }

  function ArgOf(m: Mapped): CArg {
    CArg(m.isStruct, m.name)
  }

  function ParamsOf(args: seq<Mapped>): seq<CParam> {
    seq(|args|, i requires 0 <= i < |args| => ParamOf(args[i]))
  }

  function ArgsOf(args: seq<Mapped>): seq<CArg> {
    seq(|args|, i requires 0 <= i < |args| => ArgOf(args[i]))
  }

  /** The wrapper signature for function `name` declared to return
      `returnType`, whose arguments map to `args` and return type to `ret`. */
  function SignatureOf(returnType: string, name: string, noParams: bool, args: seq<Mapped>, ret: Mapped): CSignature {
    var params := ParamsOf(args);
    CSignature(
      if ret.isStruct then "void" else returnType,
      "m" + name,
      if ret.isStruct then Params([ParamOf(ret)] + params)
      else if noParams then VoidList
      else Params(params))
  }

  /** The forwarding statement of the wrapper body. */
  function CallOf(name: string, args: seq<Mapped>, ret: Mapped): CCall {
    CCall(
      if ret.isStruct then StoreOut(ret.name) else if ret.cType == "void" then Bare else ReturnValue,
      name,
      ArgsOf(args))
  }

  /** Number of arguments a caller of the signature passes. */
  function Arity(l: ParamList): nat {
    match l
    case VoidList => 0
    case Params(ps) => |ps|
  }

  // ---------------------------------------------------------------------
  // Rendering

  function RenderParam(p: CParam): string {
    p.cType + " " + (if p.star then "*" else "") + p.name
  }

  function RenderParamSeq(ps: seq<CParam>): seq<string> {
    seq(|ps|, i requires 0 <= i < |ps| => RenderParam(ps[i]))
  }

  function RenderParams(l: ParamList): string {
    match l
    case VoidList => "void"
    case Params(ps) => Join(RenderParamSeq(ps), ", ")
  }

  function RenderSignature(s: CSignature): string {
    s.returnType + " " + s.wrapper + "(" + RenderParams(s.params) + ")"
  }

  /** The header entry: the signature and a semicolon. */
  function HeaderLine(s: CSignature): string {
    RenderSignature(s) + ";"
  }

  function RenderArg(a: CArg): string {
    (if a.deref then "*" else "") + a.name
  }

  function RenderArgSeq(args: seq<CArg>): seq<string> {
    seq(|args|, i requires 0 <= i < |args| => RenderArg(args[i]))
  }

  /** What precedes the callee: `*out = `, nothing, or `return `. */
  function KindText(k: CallKind): string {
    match k
    case StoreOut(t) => "*" + t + " = "
    case Bare => ""
    case ReturnValue => "return "
  }

  /** The statement, indented by four spaces. */
  function RenderStatement(c: CCall): string {
    "    " + KindText(c.kind) + c.callee + "(" + Join(RenderArgSeq(c.args), ", ") + ");"
  }

  /** The definition entry: signature, then a body holding the one statement. */
  function Definition(s: CSignature, c: CCall): string {
    RenderSignature(s) + " \n " + "{\n" + RenderStatement(c) + "\n}"
  }

  // ---------------------------------------------------------------------
  // Reading emitted text back

  function DecodeParam(piece: string): Option<CParam> {
    match LastIndexOf(piece, ' ')
    case None => None
    case Some(k) =>
      var rest := piece[k + 1..];
      if |rest| > 0 && rest[0] == '*' then Some(CParam(piece[..k], true, rest[1..]))
      else Some(CParam(piece[..k], false, rest))
  }

  function DecodeParamSeq(pieces: seq<string>): Option<seq<CParam>>
    decreases |pieces|
  {
    if |pieces| == 0 then Some([])
    else
      match (DecodeParam(pieces[0]), DecodeParamSeq(pieces[1..]))
      case (Some(p), Some(ps)) => Some([p] + ps)
      case _ => None
  }

  function DecodeParams(text: string): Option<ParamList> {
    if text == "void" then Some(VoidList)
    else
      match DecodeParamSeq(Split(text, ", "))
      case Some(ps) => Some(Params(ps))
      case None => None
  }

  function DecodeSignature(text: string): Option<CSignature> {
    var head :- SplitAt(text, ' ');
    var call :- SplitAt(head.1, '(');
    var list :- DropSuffix(call.1, ")");
    var params :- DecodeParams(list);
    Some(CSignature(head.0, call.0, params))
  }

  function DecodeHeader(h: string): Option<CSignature> {
    var text :- DropSuffix(h, ";");
    DecodeSignature(text)
  }

  /** Reads a definition: the signature up to the first line break, then the
      braced body holding one statement. */
  function DecodeDefinition(text: string): Option<(CSignature, CCall)> {
    var cut :- SplitAt(text, '\n');
    var sigText :- DropSuffix(cut.0, " ");
    var sig :- DecodeSignature(sigText);
    var braced :- DropPrefix(cut.1, " {\n");
    var stmt :- DropSuffix(braced, "\n}");
    var call :- DecodeStatement(stmt);
    Some((sig, call))
  }

  function DecodeArg(piece: string): CArg {
    if |piece| > 0 && piece[0] == '*' then CArg(true, piece[1..]) else CArg(false, piece)
  }

  function DecodeArgs(text: string): seq<CArg> {
    if text == "" then []
    else
      var pieces := Split(text, ", ");
      seq(|pieces|, i requires 0 <= i < |pieces| => DecodeArg(pieces[i]))
  }

  /** Reads the way the call's value is used, returning it and the text from
      the callee on. */
  function DecodeKind(s: string): Option<(CallKind, string)> {
    if "return " <= s then Some((ReturnValue, s[7..]))
    else if |s| > 0 && s[0] == '*' then
      var target :- SplitAt(s[1..], ' ');
      var rest :- DropPrefix(target.1, "= ");
      Some((StoreOut(target.0), rest))
    else Some((Bare, s))
  }

  /** Reads `kind callee(args);` after the four-space indent. */
  function DecodeStatement(stmt: string): Option<CCall> {
    var body :- DropPrefix(stmt, "    ");
    var head :- DecodeKind(body);
    var call :- SplitAt(head.1, '(');
    var argText :- DropSuffix(call.1, ");");
    Some(CCall(head.0, call.0, DecodeArgs(argText)))
  }

  // ---------------------------------------------------------------------
  // Well-formedness: what the header's regular expressions guarantee

  predicate WellFormedParam(p: CParam) {
    ',' !in p.cType && '\n' !in p.cType && IsIdentifier(p.name)
  }

  predicate WellFormedParams(l: ParamList) {
    l.Params? ==> |l.items| > 0 && forall i :: 0 <= i < |l.items| ==> WellFormedParam(l.items[i])
  }

  predicate WellFormedSignature(s: CSignature) {
    ' ' !in s.returnType && '\n' !in s.returnType && '(' !in s.wrapper && '\n' !in s.wrapper
    && WellFormedParams(s.params)
  }

  predicate WellFormedCall(c: CCall) {
    && IsIdentifier(c.callee)
    && (c.kind.StoreOut? ==> IsIdentifier(c.kind.target))
    && forall i :: 0 <= i < |c.args| ==> IsIdentifier(c.args[i].name)
  }

  // ---------------------------------------------------------------------
  // Round trips

  lemma IdentifierAvoids(s: string)
    requires IsIdentifier(s)
    ensures ' ' !in s && ',' !in s && '(' !in s && '\n' !in s && s[0] != '*'
  {
  }

  /** A parameter text is cut at its last space. */
  lemma DecodeParamAt(cType: string, tail: string)
    requires ' ' !in tail
    ensures DecodeParam(cType + [' '] + tail)
            == if |tail| > 0 && tail[0] == '*' then Some(CParam(cType, true, tail[1..]))
               else Some(CParam(cType, false, tail))
  {
    var text := cType + [' '] + tail;
    LastIndexOfBefore(cType, ' ', tail);
    assert text[..|cType|] == cType;
    assert text[|cType| + 1..] == tail;
  }

  lemma ParamRoundTrip(p: CParam)
    requires WellFormedParam(p)
    ensures DecodeParam(RenderParam(p)) == Some(p)
  {
    IdentifierAvoids(p.name);
    var tail := (if p.star then "*" else "") + p.name;
    assert ' ' !in tail;
    assert RenderParam(p) == p.cType + [' '] + tail;
    DecodeParamAt(p.cType, tail);
    if p.star {
      assert tail[1..] == p.name;
    }
  }

  lemma RenderParamSeqCons(ps: seq<CParam>)
    requires |ps| > 0
    ensures RenderParamSeq(ps) == [RenderParam(ps[0])] + RenderParamSeq(ps[1..])
  {
  }

  lemma DecodeParamSeqCons(piece: string, pieces: seq<string>)
    ensures DecodeParamSeq([piece] + pieces)
            == match (DecodeParam(piece), DecodeParamSeq(pieces))
               case (Some(p), Some(ps)) => Some([p] + ps)
               case _ => None
  {
    assert ([piece] + pieces)[1..] == pieces;
  }

  lemma {:induction false} ParamSeqRoundTrip(ps: seq<CParam>)
    requires forall i :: 0 <= i < |ps| ==> WellFormedParam(ps[i])
    ensures DecodeParamSeq(RenderParamSeq(ps)) == Some(ps)
    decreases |ps|
  {
    if |ps| > 0 {
      ParamRoundTrip(ps[0]);
      ParamSeqRoundTrip(ps[1..]);
      RenderParamSeqCons(ps);
      DecodeParamSeqCons(RenderParam(ps[0]), RenderParamSeq(ps[1..]));
      assert [ps[0]] + ps[1..] == ps;
    }
  }

  lemma RenderedParamAvoidsComma(p: CParam)
    requires WellFormedParam(p)
    ensures ',' !in RenderParam(p)
  {
    IdentifierAvoids(p.name);
  }

  /** The text of a well-formed parameter list reads back as that list. */
  lemma ParamsRoundTrip(l: ParamList)
    requires WellFormedParams(l)
    ensures DecodeParams(RenderParams(l)) == Some(l)
  {
    if l.Params? {
      var parts := RenderParamSeq(l.items);
      forall i | 0 <= i < |parts| ensures ", "[0] !in parts[i] {
        RenderedParamAvoidsComma(l.items[i]);
      }
      SplitJoin(parts, ", ");
      ParamSeqRoundTrip(l.items);
      JoinStartsWithFirst(parts, ", ");
      assert parts[0][|l.items[0].cType|] == ' ';
    }
  }

  /** A rendered signature reads back as the signature: the return type, the
      wrapper name and every parameter are recoverable from the text. */
  lemma SignatureRoundTrip(s: CSignature)
    requires WellFormedSignature(s)
    ensures DecodeSignature(RenderSignature(s)) == Some(s)
  {
    var list := RenderParams(s.params);
    var rest := s.wrapper + ['('] + (list + ")");
    assert RenderSignature(s) == s.returnType + [' '] + rest;
    SplitAtFirst(s.returnType, ' ', rest);
    SplitAtFirst(s.wrapper, '(', list + ")");
    DropSuffixOf(list, ")");
    ParamsRoundTrip(s.params);
  }

  /** A header line reads back as the signature it was rendered from. */
  lemma HeaderRoundTrip(s: CSignature)
    requires WellFormedSignature(s)
    ensures DecodeHeader(HeaderLine(s)) == Some(s)
  {
    DropSuffixOf(RenderSignature(s), ";");
    SignatureRoundTrip(s);
  }

  lemma ArgSeqRoundTrip(args: seq<CArg>)
    requires forall i :: 0 <= i < |args| ==> IsIdentifier(args[i].name)
    ensures DecodeArgs(Join(RenderArgSeq(args), ", ")) == args
  {
    var parts := RenderArgSeq(args);
    if |args| > 0 {
      forall i | 0 <= i < |parts| ensures ", "[0] !in parts[i] && DecodeArg(parts[i]) == args[i] {
        IdentifierAvoids(args[i].name);
        if args[i].deref {
          assert parts[i][1..] == args[i].name;
        }
      }
      SplitJoin(parts, ", ");
      JoinStartsWithFirst(parts, ", ");
      IdentifierAvoids(args[0].name);
      assert |parts[0]| > 0;
    }
  }

  /** The way the value is used reads back from the text before the callee. */
  lemma StoreOutRoundTrip(t: string, s2: string)
    requires IsIdentifier(t)
    ensures DecodeKind(KindText(StoreOut(t)) + s2) == Some((StoreOut(t), s2))
  {
    IdentifierAvoids(t);
    var s1 := KindText(StoreOut(t)) + s2;
    assert s1 == "*" + (t + [' '] + ("= " + s2));
    assert s1[1..] == t + [' '] + ("= " + s2);
    SplitAtFirst(t, ' ', "= " + s2);
    DropPrefixOf("= ", s2);
  }

  lemma BareRoundTrip(callee: string, rest: string)
    requires IsIdentifier(callee)
    ensures DecodeKind(callee + ['('] + rest) == Some((Bare, callee + ['('] + rest))
  {
    var s2 := callee + ['('] + rest;
    IdentifierAvoids(callee);
    assert s2[0] == callee[0];
    assert !("return " <= s2) by {
      if |callee| <= 6 {
        assert s2[|callee|] == '(';
      } else {
        assert s2[6] == callee[6];
      }
    }
  }

  lemma KindRoundTrip(k: CallKind, callee: string, rest: string)
    requires IsIdentifier(callee)
    requires k.StoreOut? ==> IsIdentifier(k.target)
    ensures DecodeKind(KindText(k) + callee + ['('] + rest) == Some((k, callee + ['('] + rest))
  {
    var s2 := callee + ['('] + rest;
    assert KindText(k) + callee + ['('] + rest == KindText(k) + s2;
    match k {
      case ReturnValue =>
        DropPrefixOf("return ", s2);
        assert "return " <= "return " + s2;
      case StoreOut(t) =>
        StoreOutRoundTrip(t, s2);
      case Bare =>
        assert KindText(k) + s2 == s2;
        BareRoundTrip(callee, rest);
    }
  }


  /** The body's statement reads back as the call it was rendered from: how
      the value is used, the callee, and every argument with its dereference. */
  lemma StatementRoundTrip(c: CCall)
    requires WellFormedCall(c)
    ensures DecodeStatement(RenderStatement(c)) == Some(c)
  {
    var argText := Join(RenderArgSeq(c.args), ", ");
    var rest := argText + ");";
    var body := KindText(c.kind) + c.callee + ['('] + rest;
    assert RenderStatement(c) == "    " + body;
    DropPrefixOf("    ", body);
    KindRoundTrip(c.kind, c.callee, rest);
    IdentifierAvoids(c.callee);
    SplitAtFirst(c.callee, '(', rest);
    DropSuffixOf(argText, ");");
    ArgSeqRoundTrip(c.args);
  }

  /** A rendered signature is a single line. */
  lemma SignatureIsOneLine(s: CSignature)
    requires WellFormedSignature(s)
    ensures '\n' !in RenderSignature(s)
  {
    if s.params.Params? {
      var parts := RenderParamSeq(s.params.items);
      forall i | 0 <= i < |parts| ensures '\n' !in parts[i] {
        IdentifierAvoids(s.params.items[i].name);
      }
      JoinAvoids(parts, ", ", '\n');
    }
  }

  /** A definition reads back as the signature and the call it was rendered
      from, so its first line is exactly the header's signature. */
  lemma DefinitionRoundTrip(s: CSignature, c: CCall)
    requires WellFormedSignature(s) && WellFormedCall(c)
    ensures DecodeDefinition(Definition(s, c)) == Some((s, c))
  {
    var sigText := RenderSignature(s);
    var stmt := RenderStatement(c);
    var tail := " {\n" + stmt + "\n}";
    SignatureIsOneLine(s);
    assert '\n' !in sigText + " ";
    assert Definition(s, c) == (sigText + " ") + ['\n'] + tail;
    SplitAtFirst(sigText + " ", '\n', tail);
    DropSuffixOf(sigText, " ");
    SignatureRoundTrip(s);
    assert tail == " {\n" + (stmt + "\n}");
    DropPrefixOf(" {\n", stmt + "\n}");
    DropSuffixOf(stmt, "\n}");
    StatementRoundTrip(c);
  }
}

=== FILE: results.dfy ===
/** Failure-carrying values used by the binding generator model.

    `Result` stands for a JavaScript computation that either produces a value
    or throws an `Error` with a message; `Option` stands for a value that may
    be `undefined`.
 */
module Results {

  datatype Option<+T> = None | Some(value: T) {

    predicate IsFailure() {
      None?
    }

    function PropagateFailure<U>(): Option<U>
      requires None?
    {
      None
    }

    function Extract(): T
      requires Some?
    {
      value
    }
  }

  datatype Result<+T> = Ok(value: T) | Err(message: string) {

    predicate IsFailure() {
      Err?
    }

    function PropagateFailure<U>(): Result<U>
      requires Err?
    {
      Err(message)
    }

    function Extract(): T
      requires Ok?
    {
      value
    }
  }
}

=== FILE: text.dfy ===
/** String helpers: the JavaScript operations the generator relies on
    (`Array.prototype.join`, `RegExp.prototype.test` on a literal word) and
    the scanning functions used to read emitted C text back. */
module Text {
  import opened Results

  /** The `\w` class of the header-parsing regular expressions. */
  predicate IsWordChar(c: char) {
    'a' <= c <= 'z' || 'A' <= c <= 'Z' || '0' <= c <= '9' || c == '_'
  }

  /** A C identifier as the header regular expressions capture it (`\w+`). */
  predicate IsIdentifier(s: string) {
    |s| > 0 && forall i :: 0 <= i < |s| ==> IsWordChar(s[i])
  }

  /** Text the parameter type group of the header regular expression can
      capture: words separated by single spaces (`const unsigned int`). */
  predicate IsTypeText(s: string) {
    forall i :: 0 <= i < |s| ==> IsWordChar(s[i]) || s[i] == ' '
  }

  /** `parts.join(sep)` */
  function Join(parts: seq<string>, sep: string): string
  {
    if |parts| == 0 then ""
    else if |parts| == 1 then parts[0]
    else parts[0] + sep + Join(parts[1..], sep)
  }

  /** `word` occurs somewhere in `s` (what `/word/.test(s)` decides). */
  predicate Contains(s: string, word: string)
    decreases |s|
  {
    if |s| < |word| then false
    else s[..|word|] == word || Contains(s[1..], word)
  }

  /** Index of the first `c` in `s`, or `|s|` when there is none. */
  function IndexOf(s: string, c: char): (i: nat)
    ensures i <= |s|
    ensures i < |s| ==> s[i] == c
    ensures forall j :: 0 <= j < i ==> s[j] != c
    decreases |s|
  {
    if |s| == 0 then 0
    else if s[0] == c then 0
    else 1 + IndexOf(s[1..], c)
  }

  /** Index of the last `c` in `s`, if any. */
  function LastIndexOf(s: string, c: char): (r: Option<nat>)
    ensures r.Some? ==> r.value < |s| && s[r.value] == c
    ensures r.Some? ==> forall j :: r.value < j < |s| ==> s[j] != c
    ensures r.None? ==> c !in s
    decreases |s|
  {
    if |s| == 0 then None
    else if s[|s| - 1] == c then Some(|s| - 1)
    else LastIndexOf(s[..|s| - 1], c)
  }

  /** Cuts `s` at every occurrence of `sep`, left to right. */
  function Split(s: string, sep: string): (parts: seq<string>)
    requires |sep| > 0
    ensures |parts| > 0
    decreases |s|
  {
    if |s| < |sep| then [s]
    else if s[..|sep|] == sep then [""] + Split(s[|sep|..], sep)
    else
      var rest := Split(s[1..], sep);
      [[s[0]] + rest[0]] + rest[1..]
  }

  /** Cuts `s` at its first `c`, dropping the `c`. */
  function SplitAt(s: string, c: char): Option<(string, string)> {
    var i := IndexOf(s, c);
    if i == |s| then None else Some((s[..i], s[i + 1..]))
  }

  /** `s` without the leading `prefix`, if it starts with it. */
  function DropPrefix(s: string, prefix: string): Option<string> {
    if prefix <= s then Some(s[|prefix|..]) else None
  }

  /** `s` without the trailing `suffix`, if it ends with it. */
  function DropSuffix(s: string, suffix: string): Option<string> {
    if |suffix| <= |s| && s[|s| - |suffix|..] == suffix then Some(s[..|s| - |suffix|]) else None
  }

  /** The first `c` in `a + [c] + b` is the one after `a` when `a` has none. */
  lemma IndexOfAfter(a: string, c: char, b: string)
    requires c !in a
    ensures IndexOf(a + [c] + b, c) == |a|
  {
    var s := a + [c] + b;
    assert s[|a|] == c;
  }

  /** Cutting at the first `c` undoes gluing two strings with a `c` when the
      first has none. */
  lemma SplitAtFirst(a: string, c: char, b: string)
    requires c !in a
    ensures SplitAt(a + [c] + b, c) == Some((a, b))
  {
    var s := a + [c] + b;
    IndexOfAfter(a, c, b);
    assert s[..|a|] == a;
    assert s[|a| + 1..] == b;
  }

  lemma DropPrefixOf(prefix: string, a: string)
    ensures DropPrefix(prefix + a, prefix) == Some(a)
  {
    assert (prefix + a)[|prefix|..] == a;
  }

  lemma DropSuffixOf(a: string, suffix: string)
    ensures DropSuffix(a + suffix, suffix) == Some(a)
  {
    var s := a + suffix;
    assert s[|s| - |suffix|..] == suffix;
    assert s[..|s| - |suffix|] == a;
  }

  /** The last `c` in `a + [c] + b` is the one before `b` when `b` has none. */
  lemma LastIndexOfBefore(a: string, c: char, b: string)
    requires c !in b
    ensures LastIndexOf(a + [c] + b, c) == Some(|a|)
  {
    var s := a + [c] + b;
    assert s[|a|] == c;
  }

  /** A string free of the separator's first character splits into itself. */
  lemma {:induction false} SplitWhole(x: string, sep: string)
    requires |sep| > 0 && sep[0] !in x
    ensures Split(x, sep) == [x]
    decreases |x|
  {
    if |x| >= |sep| {
      assert x[..|sep|][0] == x[0];
      SplitWhole(x[1..], sep);
      assert [x[0]] + x[1..] == x;
    }
  }

  /** Splitting stops at the first separator when the piece before it is free
      of the separator's first character. */
  lemma {:induction false} SplitFirstPiece(x: string, sep: string, rest: string)
    requires |sep| > 0 && sep[0] !in x
    ensures Split(x + sep + rest, sep) == [x] + Split(rest, sep)
    decreases |x|
  {
    var s := x + sep + rest;
    if |x| == 0 {
      assert s == sep + rest;
      assert s[..|sep|] == sep;
      assert s[|sep|..] == rest;
    } else {
      assert s[..|sep|][0] == x[0];
      assert s[1..] == x[1..] + sep + rest;
      SplitFirstPiece(x[1..], sep, rest);
      assert [x[0]] + x[1..] == x;
    }
  }

  /** Joining and splitting on the same separator are inverse, provided no
      part contains the separator's first character. */
  lemma {:induction false} SplitJoin(parts: seq<string>, sep: string)
    requires |sep| > 0 && |parts| > 0
    requires forall i :: 0 <= i < |parts| ==> sep[0] !in parts[i]
    ensures Split(Join(parts, sep), sep) == parts
    decreases |parts|
  {
    if |parts| == 1 {
      SplitWhole(parts[0], sep);
    } else {
      SplitFirstPiece(parts[0], sep, Join(parts[1..], sep));
      SplitJoin(parts[1..], sep);
      assert [parts[0]] + parts[1..] == parts;
    }
  }

  /** A joined list begins with its first part. */
  lemma {:induction false} JoinStartsWithFirst(parts: seq<string>, sep: string)
    requires |parts| > 0
    ensures parts[0] <= Join(parts, sep)
  {
    if |parts| > 1 {
      assert Join(parts, sep) == parts[0] + (sep + Join(parts[1..], sep));
    }
  }

  /** A character absent from every part and from the separator is absent
      from the joined string. */
  lemma {:induction false} JoinAvoids(parts: seq<string>, sep: string, c: char)
    requires c !in sep
    requires forall i :: 0 <= i < |parts| ==> c !in parts[i]
    ensures c !in Join(parts, sep)
    decreases |parts|
  {
    if |parts| > 1 {
      JoinAvoids(parts[1..], sep, c);
    }
  }
}

=== FILE: type_table.dfy ===
/** The generator's type table (`argMap`) and its lookup (`getMapping`).

    Every C type the generator can marshal has one entry: the C type text,
    whether it is a pointer, the Zig type it is exposed as, whether it is a
    struct that must cross the boundary by pointer, and how the Zig wrapper
    converts the argument before the call. */
module TypeTable {
  import opened Results

  /** A parsed parameter `t [*]n`: its type text, whether a `*` follows the
      type, and its name. The return type is looked up as `Arg(t, false, "out")`. */
  datatype Arg = Arg(cType: string, isPointer: bool, name: string)

  /** The conversion each entry's `n` lambda applies in the Zig call. */
  datatype Cast =
    | Undefined       // the lambda returns `undefined`
    | SliceToCString  // a Zig slice handed over as its C pointer
    | Verbatim        // the argument as is
    | IntToCInt       // `i32` narrowed to `c_int`
    | StructAddress   // the address of the local struct copy

  datatype Entry = Entry(cType: string, isPointer: bool, zigType: string, isStruct: bool, cast: Cast)

  const ArgMap: seq<Entry> := [
    Entry("void", false, "void", false, Undefined),
    Entry("const char", true, "[]const u8", false, SliceToCString),
    Entry("bool", false, "bool", false, Verbatim),
    Entry("float", false, "f32", false, Verbatim),
    Entry("double", false, "f64", false, Verbatim),
    Entry("int", false, "i32", false, IntToCInt),
    Entry("Font", false, "t.Font", true, StructAddress),
    Entry("Rectangle", false, "t.Rectangle", true, StructAddress),
    Entry("Camera2D", false, "t.Camera2D", true, StructAddress),
    Entry("Vector2", false, "t.Vector2", true, StructAddress),
    Entry("Color", false, "t.Color", true, StructAddress),
    Entry("Matrix", false, "t.Matrix", true, StructAddress),
    Entry("Texture2D", false, "t.Texture2D", true, StructAddress)
  ]

  /** The (type, pointer) pairs the table knows, written out independently of it. */
  const SupportedKinds: set<(string, bool)> := {
    ("void", false), ("const char", true), ("bool", false), ("float", false),
    ("double", false), ("int", false), ("Font", false), ("Rectangle", false),
    ("Camera2D", false), ("Vector2", false), ("Color", false), ("Matrix", false),
    ("Texture2D", false)
  }

  /** The struct types, which never cross the C boundary by value. */
  const StructTypes: set<string> :=
    {"Font", "Rectangle", "Camera2D", "Vector2", "Color", "Matrix", "Texture2D"}

  /** A parameter that holds a struct by value. */
  predicate IsStructValue(a: Arg) {
    !a.isPointer && a.cType in StructTypes
  }

  /** The Zig call-site expression `entry.n(a)`; `None` is `undefined`. */
  function CastExpr(cast: Cast, a: Arg): Option<string> {
    match cast
    case Undefined => None
    case SliceToCString => Some("@ptrCast([*c]const u8, " + a.name + ".ptr)")
    case Verbatim => Some(a.name)
    case IntToCInt => Some("@intCast(c_int, " + a.name + ")")
    case StructAddress => Some("@ptrCast([*c]r." + a.cType + ", &_" + a.name + ")")
  }

  /** `${v}` in a JavaScript template literal. */
  function Show(v: Option<string>): string {
    match v
    case Some(s) => s
    case None => "undefined"
  }

  /** The object `{ name: arg.n, ...entry, cn: entry.n(arg) }`. */
  datatype Mapped = Mapped(name: string, cType: string, isPointer: bool, zigType: string, isStruct: bool, cn: Option<string>)

  function Merge(e: Entry, a: Arg): Mapped {
    Mapped(a.name, e.cType, e.isPointer, e.zigType, e.isStruct, CastExpr(e.cast, a))
  }

  predicate Matches(e: Entry, a: Arg) {
    a.cType == e.cType && a.isPointer == e.isPointer
  }

  /** `i` is the first entry of `table` that matches `a`. */
  predicate IsFirstMatch(table: seq<Entry>, a: Arg, i: int) {
    0 <= i < |table| && Matches(table[i], a) && forall j :: 0 <= j < i ==> !Matches(table[j], a)
  }

  /** Scans `table` from index `i` on, in order, for an entry matching `a`. */
  function FindFrom(table: seq<Entry>, a: Arg, i: nat): (r: Option<nat>)
    requires i <= |table|
    ensures r.Some? ==> i <= r.value < |table| && Matches(table[r.value], a)
    ensures r.Some? ==> forall j :: i <= j < r.value ==> !Matches(table[j], a)
    ensures r.None? ==> forall j :: i <= j < |table| ==> !Matches(table[j], a)
    decreases |table| - i
  {
    if i == |table| then None
    else if Matches(table[i], a) then Some(i)
    else FindFrom(table, a, i + 1)
  }

  function UnknownArgMessage(a: Arg): string {
    "unknown arg type " + a.cType + " " + (if a.isPointer then "*" else "") + a.name
  }

  /** `getMapping(arg)`: the first table entry with the argument's type and
      pointer flag, merged with the argument; otherwise the thrown error. */
  function GetMapping(a: Arg): (r: Result<Mapped>)
    ensures r.Ok? ==> exists i :: IsFirstMatch(ArgMap, a, i) && r.value == Merge(ArgMap[i], a)
    ensures r.Ok? ==> r.value.name == a.name && r.value.cType == a.cType && r.value.isPointer == a.isPointer
    ensures r.Err? ==> (forall i :: 0 <= i < |ArgMap| ==> !Matches(ArgMap[i], a)) && r.message == UnknownArgMessage(a)
  {
    match FindFrom(ArgMap, a, 0)
    case Some(i) => Ok(Merge(ArgMap[i], a))
    case None => Err(UnknownArgMessage(a))
  }

  /** No two table entries share a type and pointer flag, so the first match
      is the only one. */
  lemma TableKeysDistinct()
    ensures forall i, j :: 0 <= i < j < |ArgMap| ==>
              (ArgMap[i].cType, ArgMap[i].isPointer) != (ArgMap[j].cType, ArgMap[j].isPointer)
    ensures forall a, i :: IsFirstMatch(ArgMap, a, i) <==> 0 <= i < |ArgMap| && Matches(ArgMap[i], a)
  {
  }

  /** The supported pairs are exactly the keys of the table. */
  predicate IsKey(k: (string, bool)) {
    exists i :: 0 <= i < |ArgMap| && ArgMap[i].cType == k.0 && ArgMap[i].isPointer == k.1
  }

  lemma KeysSupported()
    ensures forall i :: 0 <= i < |ArgMap| ==> (ArgMap[i].cType, ArgMap[i].isPointer) in SupportedKinds
  {
  }

  lemma SupportedAreKeys(k: (string, bool))
    requires k in SupportedKinds
    ensures IsKey(k)
  {
    var i: int;
    if k == ("void", false) { i := 0; }
    else if k == ("const char", true) { i := 1; }
    else if k == ("bool", false) { i := 2; }
    else if k == ("float", false) { i := 3; }
    else if k == ("double", false) { i := 4; }
    else if k == ("int", false) { i := 5; }
    else if k == ("Font", false) { i := 6; }
    else if k == ("Rectangle", false) { i := 7; }
    else if k == ("Camera2D", false) { i := 8; }
    else if k == ("Vector2", false) { i := 9; }
    else if k == ("Color", false) { i := 10; }
    else if k == ("Matrix", false) { i := 11; }
    else { i := 12; }
    assert ArgMap[i].cType == k.0 && ArgMap[i].isPointer == k.1;
  }

  /** The lookup succeeds exactly for the supported (type, pointer) pairs. */
  lemma GetMappingSupported(a: Arg)
    ensures GetMapping(a).Ok? <==> (a.cType, a.isPointer) in SupportedKinds
  {
    var k := (a.cType, a.isPointer);
    KeysSupported();
    if k in SupportedKinds {
      SupportedAreKeys(k);
      var i :| 0 <= i < |ArgMap| && ArgMap[i].cType == k.0 && ArgMap[i].isPointer == k.1;
      assert Matches(ArgMap[i], a);
    }
  }

  /** A mapped argument is flagged as a struct exactly when it is a struct
      type passed by value. */
  lemma GetMappingStruct(a: Arg)
    requires GetMapping(a).Ok?
    ensures GetMapping(a).value.isStruct <==> IsStructValue(a)
  {
    StructEntriesExact();
    var i :| IsFirstMatch(ArgMap, a, i) && GetMapping(a).value == Merge(ArgMap[i], a);
    assert Matches(ArgMap[i], a);
  }

  /** The struct flag of an entry is the by-value struct test on its key. */
  lemma StructEntriesExact()
    ensures forall i :: 0 <= i < |ArgMap| ==>
              (ArgMap[i].isStruct <==> !ArgMap[i].isPointer && ArgMap[i].cType in StructTypes)
  {
  }

  /** Every struct entry is a by-value type exposed to Zig as `t.<type>` and
      converted by taking the address of its local copy. */
  lemma StructEntriesShape()
    ensures forall i :: 0 <= i < |ArgMap| && ArgMap[i].isStruct ==>
              !ArgMap[i].isPointer && ArgMap[i].zigType == "t." + ArgMap[i].cType && ArgMap[i].cast == StructAddress
  {
  }

  /** A struct argument is exposed to Zig by value and handed to C as the
      address of its local copy `_<name>`. */
  lemma GetMappingStructCast(a: Arg)
    requires GetMapping(a).Ok? && GetMapping(a).value.isStruct
    ensures GetMapping(a).value.zigType == "t." + a.cType
    ensures GetMapping(a).value.cn == Some("@ptrCast([*c]r." + a.cType + ", &_" + a.name + ")")
  {
    StructEntriesShape();
    var i :| IsFirstMatch(ArgMap, a, i) && GetMapping(a).value == Merge(ArgMap[i], a);
    assert ArgMap[i].isStruct;
  }
}

=== FILE: zig_emit.dfy ===
/** The Zig half of a wrapper: a function with the original by-value
    signature that copies struct arguments into locals, calls the C wrapper
    with their addresses, and for a struct result passes the address of a
    local `_out` and returns it. */
module ZigEmit {
  import opened Results
  import opened Text
  import opened TypeTable

  datatype ZigParam = ZigParam(name: string, zigType: string)

  datatype ZigFn = ZigFn(
    name: string,
    params: seq<ZigParam>,
    returnType: string,
    copies: seq<string>,      // struct arguments copied into locals `_<name>`
    outType: Option<string>,  // type of the local `_out` the C wrapper fills
    returnsCall: bool,        // whether the call's own value is returned
    callee: string,
    callArgs: seq<string>)

  /** Names of the struct arguments, in order: the locals the body declares. */
  function StructCopies(args: seq<Mapped>): (names: seq<string>)
    ensures |names| <= |args|
    ensures forall n :: n in names <==> exists i :: 0 <= i < |args| && args[i].isStruct && args[i].name == n
    decreases |args|
  {
    if |args| == 0 then []
    else
      var rest := StructCopies(args[1..]);
      assert forall i :: 1 <= i < |args| ==> args[i] == args[1..][i - 1];
      if args[0].isStruct then [args[0].name] + rest else rest
  }

  /** `idx` lists, in increasing order, exactly the positions of the struct
      arguments among `args`. */
  predicate StructPositions(args: seq<Mapped>, idx: seq<nat>) {
    && (forall k :: 0 <= k < |idx| ==> idx[k] < |args| && args[idx[k]].isStruct)
    && (forall k, l :: 0 <= k < l < |idx| ==> idx[k] < idx[l])
    && (forall i :: 0 <= i < |args| && args[i].isStruct ==> i in idx)
  }

  function Shift(idx: seq<nat>): (r: seq<nat>)
    ensures |r| == |idx| && forall k :: 0 <= k < |idx| ==> r[k] == idx[k] + 1
  {
    seq(|idx|, k requires 0 <= k < |idx| => idx[k] + 1)
  }

  /** `idx` lists, in increasing order, exactly the struct positions of
      `args` other than the first. */
  predicate LaterStructPositions(args: seq<Mapped>, idx: seq<nat>) {
    && (forall k :: 0 <= k < |idx| ==> 1 <= idx[k] < |args| && args[idx[k]].isStruct)
    && (forall k, l :: 0 <= k < l < |idx| ==> idx[k] < idx[l])
    && (forall i :: 1 <= i < |args| && args[i].isStruct ==> i in idx)
  }

  /** The tail's struct positions, shifted by one, are the struct positions
      of the whole list after the first. */
  lemma ShiftPositions(args: seq<Mapped>, idx0: seq<nat>)
    requires |args| > 0 && StructPositions(args[1..], idx0)
    ensures LaterStructPositions(args, Shift(idx0))
  {
    var tail := args[1..];
    var shifted := Shift(idx0);
    assert forall k :: 0 <= k < |shifted| ==> args[shifted[k]] == tail[idx0[k]];
    forall i | 1 <= i < |args| && args[i].isStruct
      ensures i in shifted
    {
      assert tail[i - 1] == args[i];
      var k :| 0 <= k < |idx0| && idx0[k] == i - 1;
      assert shifted[k] == i;
    }
  }

  /** A struct in front adds position 0 ahead of the later positions. */
  lemma PrependPosition(args: seq<Mapped>, later: seq<nat>)
    requires |args| > 0 && args[0].isStruct && LaterStructPositions(args, later)
    ensures StructPositions(args, [0] + later)
  {
    var idx := [0] + later;
    forall k | 0 <= k < |idx|
      ensures idx[k] < |args| && args[idx[k]].isStruct
    {
      if k > 0 {
        assert idx[k] == later[k - 1];
      }
    }
    forall k, l | 0 <= k < l < |idx|
      ensures idx[k] < idx[l]
    {
      assert idx[l] == later[l - 1];
      if k > 0 {
        assert idx[k] == later[k - 1];
      }
    }
    forall i | 0 <= i < |args| && args[i].isStruct
      ensures i in idx
    {
      if i > 0 {
        var k :| 0 <= k < |later| && later[k] == i;
        assert idx[k + 1] == i;
      }
    }
  }

  /** Struct positions in the tail, shifted by one, with position 0 in front
      when the first argument is a struct, are the struct positions of the
      whole list. */
  lemma ConsPositions(args: seq<Mapped>, idx0: seq<nat>)
    requires |args| > 0 && StructPositions(args[1..], idx0)
    ensures StructPositions(args, if args[0].isStruct then [0] + Shift(idx0) else Shift(idx0))
  {
    ShiftPositions(args, idx0);
    if args[0].isStruct {
      PrependPosition(args, Shift(idx0));
    }
  }

  /** The names picked at the shifted positions are the tail's copies. */
  lemma ConsNames(args: seq<Mapped>, idx0: seq<nat>)
    requires |args| > 0 && StructPositions(args[1..], idx0)
    requires |idx0| == |StructCopies(args[1..])|
    requires forall k :: 0 <= k < |idx0| ==> StructCopies(args[1..])[k] == args[1..][idx0[k]].name
    ensures var idx := if args[0].isStruct then [0] + Shift(idx0) else Shift(idx0);
            && |idx| == |StructCopies(args)|
            && forall k :: 0 <= k < |idx| ==> StructCopies(args)[k] == args[idx[k]].name
  {
    var shifted := Shift(idx0);
    assert forall k :: 0 <= k < |shifted| ==> args[shifted[k]] == args[1..][idx0[k]];
    if args[0].isStruct {
      var idx := [0] + shifted;
      assert forall k :: 1 <= k < |idx| ==> idx[k] == shifted[k - 1];
      assert StructCopies(args) == [args[0].name] + StructCopies(args[1..]);
    }
  }

  /** The body declares one copy per struct argument, in argument order and
      no other: the copies are the names at the struct positions. */
  lemma {:induction false} StructCopiesInOrder(args: seq<Mapped>)
    ensures exists idx: seq<nat> ::
              && StructPositions(args, idx)
              && |idx| == |StructCopies(args)|
              && forall k :: 0 <= k < |idx| ==> StructCopies(args)[k] == args[idx[k]].name
    decreases |args|
  {
    if |args| == 0 {
      assert StructPositions(args, []);
    } else {
      var tail := args[1..];
      StructCopiesInOrder(tail);
      var idx0: seq<nat> :| && StructPositions(tail, idx0)
                            && |idx0| == |StructCopies(tail)|
                            && forall k :: 0 <= k < |idx0| ==> StructCopies(tail)[k] == tail[idx0[k]].name;
      ConsPositions(args, idx0);
      ConsNames(args, idx0);
    }
  }

  /** The Zig wrapper for function `name` with mapped arguments and return. */
  function ZigFnOf(name: string, args: seq<Mapped>, ret: Mapped): ZigFn {
    ZigFn(
      name,
      seq(|args|, i requires 0 <= i < |args| => ZigParam(args[i].name, args[i].zigType)),
      ret.zigType,
      StructCopies(args),
      if ret.isStruct then Some(ret.zigType) else None,
      !ret.isStruct && ret.cType != "void",
      "m" + name,
      (if ret.isStruct then [Show(ret.cn)] else [])
        + seq(|args|, i requires 0 <= i < |args| => Show(args[i].cn)))
  }

  function RenderZig(f: ZigFn): string {
    var paramText := Join(seq(|f.params|, i requires 0 <= i < |f.params| =>
                                f.params[i].name + ": " + f.params[i].zigType), ", ");
    var signature := "pub fn " + f.name + " (" + paramText + ") " + f.returnType;
    var copies := Join(seq(|f.copies|, i requires 0 <= i < |f.copies| =>
                             "var _" + f.copies[i] + " = " + f.copies[i] + ";\n"), "");
    var outDecl := match f.outType
      case Some(z) => "var _out: " + z + " = undefined;\n"
      case None => "";
    var open := "\n    " + (if f.returnsCall then "return " else "") + "r." + f.callee + "(\n";
    var argLines := Join(seq(|f.callArgs|, i requires 0 <= i < |f.callArgs| =>
                               "        " + f.callArgs[i] + ",\n"), "");
    var tail := if f.outType.Some? then "    return _out;" else "";
    signature + " " + "{" + copies + outDecl + open + argLines + "    );" + tail + "}"
  }
}
